=== FILE: README.md ===
# Time-based availability of a solar PV plant — a Dafny model

This project models the availability engine of a solar-plant reporting
tool. The engine is the method `Availability.availability_calc`. It takes
one month of aligned hourly series:

- the five pyranometers of the meteo station (RAD_1 and RAD_2 horizontal,
  RAD_3 to RAD_5 tilted);
- the active power of every string box (SCB, a DC combiner), grouped by
  the inverter it feeds;
- the active power of every inverter.

From these it computes:

- the productive-hour flag `HGPOAm`;
- the tilted (GPOAI) and horizontal (GHI) irradiation;
- a 0/1 availability flag per string box and per inverter;
- a manual communication-outage override, under which a group of string
  boxes is judged by its inverter's status;
- the plant-level hourly values `HPm`, `Am` and `HPm-I`;
- three monthly ratios: string-box availability, inverter availability and
  irradiation gain.

Every stage is a pure function over immutable sequences:

| module | file | stage |
|---|---|---|
| `Common` | common.dfy | `Option`/`Result`, the `Error` kinds, 0/1 flags (`Bit`), sums over hours and groups |
| `Irradiance` | irradiance.dfy | NaN-skipping mean, productive flag, GPOAI/GHI |
| `Flags` | flags.dfy | string-box and inverter flags |
| `ScbIds` | scb_ids.dfy | `"SCB I-N"` → `I`: Python `str.split()`, `split('-')[0]` and `int()` |
| `Outage` | outage.dfy | affected-inverter set, outage flags, masking by declared windows |
| `Aggregation` | aggregation.dfy | group contributions, `HPm`, `Am`, `HPm-I`, monthly ratios |
| `Engine` | engine.dfy | the whole pipeline (`Compute`) and lemmas about the report it returns |

Representation:

- Hours are indices into one shared sequence.
- A reading is `Option<real>`, where `None` is a missing (NaN) value.
- pandas' `mean` and `sum` skip NaN. A mean over no present reading is
  `None`. A sum over no present reading is 0.
- Arithmetic is exact (`real`).
- The divisions by an hourly or monthly quantity that can be 0 return
  `Option`. This covers `Am` in non-productive hours, both availability
  ratios when no hour is productive, and the gain when the horizontal
  irradiation sums to 0.
- The two divisions by a plant size are not `Option`s:
  - HPm's division by the number of string boxes
    (Availability_Calc.py:135) is guarded by the `EmptyPlant` error.
  - HPm-I's division by the number of inverters (line 140) cannot be by 0
    in a successful run. `Aggregation.HPmISeries` requires at least one
    inverter. `Engine.Compute` succeeds only with at least one string box
    and no more groups than inverters, which implies at least one inverter.
- Group `g` (0-based) is paired with inverter column `g` and with outage
  column `g`, in the order the group tables are read.
  - `availability_calc` names the outage columns `COM-I<n>` with the counter
    `cont_inv`, taken over the inverter columns in order
    (Availability_Calc.py:98-105).
  - It then looks up both `COM-I<n>` and `HPm-I<n>` for the n-th group with
    a second counter, `cont_scb_group` (lines 120-129).
- The total number of string boxes is the sum of the group sizes. The
  string-box table is the merge of the group tables
  (SCB_Data/Read_SCB_Data.py:54-56).

Behaviour worth noting:

- **Windows intersect.** Each declared `(start, end)` tuple clears every
  hour outside it, one tuple after another (Availability_Calc.py:110-113).
  With several windows, a flag survives only in their intersection.
  Two disjoint windows, or one window whose end precedes its start, clear
  every outage flag; no error is raised (`Outage.MaskIsIntersection`,
  `Outage.DisjointWindowsClearAll`).
- **Unknown inverter numbers are ignored.** A declared id whose inverter
  number matches no inverter column has no effect. Only an id that does not
  parse is an error. That happens with fewer than two words (IndexError) or
  with no integer before the first `-` (ValueError).
- **More groups than inverters fails.** If there are more string-box groups
  than inverter columns, the lookup of `COM-I<k>` raises KeyError
  (Availability_Calc.py:126). The model returns
  `MissingInverterColumn(k)`.

## Model

| member | source | states |
|---|---|---|
| Irradiance.Mean | Availability_Calc.py:57-63 | the row mean is missing exactly when no sensor reading is present; otherwise mean × count of present readings = their sum |
| Irradiance.Productive | Availability_Calc.py:57 | the flag is 1 exactly when some tilted reading is present and the present tilted readings sum to more than 300 × their count, i.e. their mean exceeds 300 W/m2 |
| Irradiance.Irradiation | Availability_Calc.py:62-63 | irradiation is missing exactly when no reading is present; otherwise value × 1000 × count = sum of present readings (mean in kWh/m2) |
| Irradiance.ProductiveSeries | Availability_Calc.py:57 | one productive flag per hour of the meteo index, each the flag of that hour's readings |
| Irradiance.TiltedSeries | Availability_Calc.py:62 | one GPOAI value per hour, from RAD_3..RAD_5 |
| Irradiance.HorizontalSeries | Availability_Calc.py:63 | one GHI value per hour, from RAD_1..RAD_2 |
| Irradiance.MeanBetween | Availability_Calc.py:57 | the NaN-skipping mean lies between any lower and upper bound of the present readings |
| Irradiance.ProductiveWhenAllAbove | Availability_Calc.py:57 | an hour whose present tilted readings all reach a level above 300 is productive |
| Irradiance.NotProductiveWhenAllAtMost | Availability_Calc.py:57 | an hour whose present tilted readings are all at most a level ≤ 300, or that has none, is not productive |
| Irradiance.ProductiveScenario | Availability_Calc.py:57 | tilted readings 350, 360, 340 give a productive hour |
| Irradiance.NonProductiveScenario | Availability_Calc.py:57 | tilted readings averaging 250 give a non-productive hour |
| Flags.BoxFlag | Availability_Calc.py:72 | a string box is available (1) exactly in a productive hour with a present power reading above 5; a missing reading gives 0; the flag never exceeds the productive flag |
| Flags.InverterFlag | Availability_Calc.py:80 | an inverter is available exactly in a productive hour whose power is above 0 or missing; the flag never exceeds the productive flag |
| Flags.BoxFlagSeries | Availability_Calc.py:71-72 | one string-box flag per hour, aligned with the power series |
| Flags.PlantBoxFlags | Availability_Calc.py:68-72 | flags for every box of every group, in the same group/box layout as the input |
| Flags.InverterFlagSeries | Availability_Calc.py:80 | one inverter flag per hour, aligned with the power series |
| Flags.PlantInverterFlags | Availability_Calc.py:77-80 | one flag series per inverter column, in column order |
| Flags.MissingReadingAsymmetry | Availability_Calc.py:72-80 | a missing string-box reading gives 0 while a missing inverter reading gives the productive flag |
| Flags.NonProductiveHourClearsFlags | Availability_Calc.py:72-80 | in a non-productive hour both flags are 0 whatever the power |
| ScbIds.Split | Availability_Calc.py:90 | `str.split()` returns only non-empty words without whitespace, and the words written one after the other are the string with its whitespace removed |
| ScbIds.SplitSpaced | Availability_Calc.py:90 | any string made of leading whitespace, then words each followed by whitespace (non-empty between words, possibly empty at the end) splits into exactly those words |
| ScbIds.BeforeDash | Availability_Calc.py:90 | `split('-')[0]` is the prefix before the first '-', and contains no '-' |
| ScbIds.ParseInt | Availability_Calc.py:90 | the model accepts exactly an optional '+' followed by digits grouped by single underscores, which is what `int()` accepts from such strings up to CPython's digit-count limit (see Left out) |
| ScbIds.ParseIntPlusSign | Availability_Calc.py:90 | a leading '+' does not change what `int()` reads |
| ScbIds.ParseIntLeadingZeros | Availability_Calc.py:90 | leading zeros do not change what the model's `int()` reads from a digit string (CPython's digit-count limit aside) |
| ScbIds.ParseIntUnderscore | Availability_Calc.py:90 | an underscore between two digit groups does not change what `int()` reads |
| ScbIds.ParseIntExamples | Availability_Calc.py:90 | `int()` reads "01" as 1, "+3" as 3 and "1_0" as 10 |
| ScbIds.ParseIntNatToString | Availability_Calc.py:90 | the model's `int()` reads back the decimal notation of every natural number (CPython's digit-count limit aside) |
| ScbIds.ParseScbId | Availability_Calc.py:90 | an id with fewer than two words is rejected; otherwise the result is `int()` of the second word's part before '-' |
| ScbIds.ParseScbName | Availability_Calc.py:90 | every id "SCB I-N" (N without whitespace) yields inverter number I (CPython's digit-count limit aside) |
| ScbIds.ParseScbIdExamples | Availability_Calc.py:114 | "SCB 1-06" yields 1 and "SCB 5-10" yields 5, as in the sample call |
| ScbIds.MissingSpaceRejected | Availability_Calc.py:90 | "SCB5-10" has one word only and is rejected |
| ScbIds.NonNumericInverterRejected | Availability_Calc.py:90 | "SCB x-10" has no integer inverter part and is rejected |
| Outage.AffectedInverters | Availability_Calc.py:88-92 | succeeds exactly when every id parses, and then holds exactly the inverter numbers the ids name (duplicates removed); otherwise reports the first id that fails |
| Outage.AffectedIgnoresOrderAndRepetition | Availability_Calc.py:92 | declarations with the same ids, in any order or multiplicity, give the same outcome and the same set |
| Outage.OutageFlags | Availability_Calc.py:98-105 | one column per inverter column; column k is the productive flag if inverter k+1 is affected and 0 otherwise |
| Outage.UnaffectedNeverOut | Availability_Calc.py:103-104 | an inverter outside the affected set has outage flag 0 at every hour |
| Outage.AffectedOutWhenProductive | Availability_Calc.py:101-102 | an affected inverter's outage flag equals the productive flag |
| Outage.EmptyDeclarationNoOutage | Availability_Calc.py:88-105 | an empty declaration affects no inverter and gives all-zero outage flags |
| Outage.MaskColumns | Availability_Calc.py:111-113 | one window keeps every flag inside it (inclusive, hourly) and clears every flag outside it |
| Outage.MaskAll | Availability_Calc.py:110-113 | after all windows, a flag keeps its value exactly at hours inside every window and is 0 elsewhere |
| Outage.MaskNeverRaises | Availability_Calc.py:113 | masking never changes a 0 to a 1 |
| Outage.MaskOnlyInsideEveryWindow | Availability_Calc.py:110-113 | a masked flag can be 1 only at an hour inside every window |
| Outage.MaskWithoutWindows | Availability_Calc.py:110 | no window leaves the outage flags unchanged |
| Outage.Intersection | Availability_Calc.py:110-113 | the interval from the latest start to the earliest end covers exactly the hours inside every window |
| Outage.MaskIsIntersection | Availability_Calc.py:110-113 | masking by several windows equals masking by their intersection, not their union |
| Outage.DisjointWindowsClearAll | Availability_Calc.py:110-113 | two non-overlapping windows, or a window ending before it starts, clear every outage flag |
| Aggregation.Contribution | Availability_Calc.py:125-128 | a group's hourly contribution lies between 0 and its number of boxes and is 0 in non-productive hours |
| Aggregation.ContributionWithoutOutage | Availability_Calc.py:123-128 | with outage flag 0 the contribution is the plain sum of the box flags, equal to the no-override formula kept in the comment at 123-124 |
| Aggregation.ContributionDuringOutage | Availability_Calc.py:126-128 | with outage flag 1 in a productive hour the contribution is the inverter flag times the group size |
| Aggregation.GroupContributions | Availability_Calc.py:125-128 | one contribution per hour, from that hour's box flags, outage flag and inverter flag |
| Aggregation.PlantContributions | Availability_Calc.py:120-129 | group g uses outage column g and inverter column g, one series per group |
| Aggregation.HPmSeries | Availability_Calc.py:135 | HPm × total string-box count = sum of the group contributions, each hour |
| Aggregation.AmSeries | Availability_Calc.py:136 | Am is defined exactly in productive hours, and there equals HPm |
| Aggregation.FlagMean | Availability_Calc.py:140 | the mean of one hour's inverter flags lies in [0,1], and times the number of inverters gives the number of available ones |
| Aggregation.HPmISeries | Availability_Calc.py:140 | HPm-I lies in [0,1], and HPm-I × number of inverters = number of available inverters, each hour |
| Aggregation.HourWithinTotal | Availability_Calc.py:133-135 | at one hour the group contributions sum to at most the plant's string-box count, and to 0 outside productive hours |
| Aggregation.HPmBounds | Availability_Calc.py:135 | with contributions bounded by group sizes that sum to the total, 0 ≤ HPm ≤ productive flag ≤ 1 |
| Aggregation.HPmIBounds | Availability_Calc.py:140 | with inverter flags never above the productive flag, 0 ≤ HPm-I ≤ productive flag |
| Aggregation.Ratio | Availability_Calc.py:144-147 | the quotient is missing exactly when the divisor is 0, and otherwise times the divisor gives the dividend |
| Aggregation.Summarize | Availability_Calc.py:144-147 | both availabilities are missing exactly when no hour is productive, and otherwise times the number of productive hours give ΣHPm and ΣHPm-I; the gain is missing exactly when the GHI sum is 0, and otherwise GHI sum × (1 + gain) = GPOAI sum |
| Aggregation.MonthlyAvailabilityBounds | Availability_Calc.py:144-145 | when HPm and HPm-I never exceed the productive flag, both monthly availabilities lie in [0,1] |
| Engine.Compute | Availability_Calc.py:53-147 | succeeds exactly when every declared id parses, there are no more groups than inverters and at least one string box; otherwise returns the error `availability_calc` raises first, or `EmptyPlant` where it raises nothing but HPm becomes NaN (see Left out); the report has one entry per input hour, box and inverter |
| Engine.ReportFlags | Availability_Calc.py:57-80 | in the report, box and inverter flags are 1 exactly under the flag rules for that hour's readings |
| Engine.ReportContributionBounds | Availability_Calc.py:125-128 | every group contribution lies in [0, group size] and is 0 in non-productive hours |
| Engine.ReportContributionValue | Availability_Calc.py:120-129 | each report contribution is the group contribution of that hour's productive flag, the masked outage flag of the group's inverter, the group's box flags and the inverter's flag |
| Engine.ReportHourlySeries | Availability_Calc.py:135-140 | the report's HPm is the sum of the report's contributions over the plant's string-box count, and its HPm-I the mean of the report's inverter flags, hour by hour |
| Engine.ReportHourlyBounds | Availability_Calc.py:135-140 | HPm and HPm-I lie in [0,1] and are 0 in non-productive hours; Am equals HPm in productive hours and is missing otherwise |
| Engine.HPmBoundsInReport | Availability_Calc.py:135 | every hourly HPm of the report lies between 0 and the productive flag |
| Engine.ReportIrradiation | Availability_Calc.py:62-63 | the report's GPOAI and GHI at each hour are the irradiation of that hour's tilted and horizontal readings |
| Engine.ReportMonthlyValues | Availability_Calc.py:144-147 | the string-box availability is ΣHPm / ΣHGPOAm, the inverter availability ΣHPm-I / ΣHGPOAm, and the gain (ΣGPOAI − ΣGHI) / ΣGHI, each missing at a zero divisor |
| Engine.ReportMonthlyBounds | Availability_Calc.py:144-147 | both availabilities are defined exactly when some hour is productive, and then lie in [0,1]; the gain is missing exactly when the GHI sum is 0 |
| Engine.ReportOutageFlags | Availability_Calc.py:98-113 | an inverter's outage flag is 1 exactly in productive hours inside every window, when a declared id names that inverter |
| Engine.EmptyDeclarationNoOverride | Availability_Calc.py:123-128 | with no declared string box, every contribution equals the no-override count, whatever windows are given |
| Engine.DeclaredOutageOverridesGroup | Availability_Calc.py:125-128 | with a declared box of group g+1 and no window, every productive hour's contribution is the inverter flag times the group size |

## Left out

- Reading the CSV files is not modelled: directory scanning, quote
  stripping, `to_numeric` coercion and timestamp reconstruction
  (INV_Data/Read_Inv_Data.py, Met_Data/Read_Met_Data.py,
  SCB_Data/Read_SCB_Data.py). The model starts from parsed, aligned series.
- Misaligned series are not modelled. `Engine.Compute` requires every
  series to have one entry per meteo hour (`Engine.Aligned`). In
  `availability_calc`:
  - The means at lines 57 and 62-63 and the `> 5`, `> 0` and `== 1`
    comparisons each involve a single frame or series, so nothing is
    aligned there.
  - The `&` at lines 72 and 80 aligns its two operands by label and treats
    a missing label as False. With different labels, even at equal length,
    the result covers the union of the labels. Assigning it then raises
    ValueError.
  - Only the `np.where` at line 102 is purely positional.
  - The row-sum Series of lines 135 and 140 are aligned by label when
    assigned into `avail_df`, and hours they lack become NaN.
- The constructor's loading (Availability_Calc.py:23-32), `sys.argv` and the
  module-level call (lines 18, 175) are left out, because they are I/O.
- The printing, the `output_df` merges and the Excel export (lines 150-172)
  are left out, because they are output only.
- Floating point is not modelled: values are exact reals. IEEE rounding,
  NaN propagation and infinities are replaced by `Option` results.
- Engine.Compute: returns `EmptyPlant` when the plant has no string box.
  `availability_calc` raises nothing in that case:
  - It divides every hour's HPm by 0, so HPm and Am become NaN.
  - It still produces the inverter flags, HPm-I, the inverter availability
    and the irradiation gain.
  - Its string-box availability is 0.0 whenever some hour is productive,
    because `sum` skips the NaN HPm (line 144).
  The model reports none of these outputs for such a plant.
- Windows are inclusive pairs of hour indices. `pd.date_range` with an
  off-the-hour start would match no hour of the index. That timestamp
  machinery is not modelled.
- ScbIds.ParseInt: accepts ASCII digits only. Python's `int()` also accepts
  other Unicode decimal digits.
  - CPython's default limit of 4300 digits for `int()` of a decimal string
    is not modelled. Beyond it `int()` raises ValueError; leading zeros
    count towards the limit, the sign and underscores do not. The limit is
    configurable, and absent before 3.11 and the 2022 security releases.
  - So an id such as "SCB " followed by 4300 zeros and "1-06" makes line 90
    raise, while `ScbIds.ParseScbId` reads inverter 1.
- The thresholds (300 W/m2, 5 kW, 0 kW) are fixed constants, as in
  `availability_calc`.
- Re-running the engine on the same inputs gives the same report. This
  holds by construction, since every member is a pure function, so it has
  no lemma of its own.
- Duplicate inverter column names (which change what `get_loc` returns at
  line 79) are not modelled.

=== FILE: aggregation.dfy ===
/** The aggregation stage: per-group hourly contributions (with the outage
    override), the plant-level hourly values HPm, Am and HPm-I, and the
    three monthly ratios. */
module Aggregation {
  import opened Common

  /** The contribution of one inverter's group of string boxes at one hour:
      0 outside productive hours; otherwise the number of available boxes,
      or, while the group's communication is out, the inverter's flag times
      the number of boxes. */
  function Contribution(productive: Bit, outage: Bit, boxFlags: seq<Bit>, inverterFlag: Bit): (c: nat)
    ensures c <= |boxFlags|
    ensures productive == 0 ==> c == 0
  {
    SumOfBitsBounded(boxFlags);
    if productive == 1 then
      (if outage == 0 then Sum(boxFlags) else inverterFlag * |boxFlags|)
    else 0
  }

  /** The contribution without any outage override: the count of available
      boxes in productive hours. */
  function PlainContribution(productive: Bit, boxFlags: seq<Bit>): nat
  {
    SumOfBitsBounded(boxFlags);
    if productive == 1 then Sum(boxFlags) else 0
  }

  /** While a group's communication is fine, its contribution is the plain
      sum of its box flags, and so agrees with the no-override computation
      (box flags are never set outside productive hours). */
  lemma ContributionWithoutOutage(productive: Bit, boxFlags: seq<Bit>, inverterFlag: Bit)
    requires forall b :: 0 <= b < |boxFlags| ==> boxFlags[b] <= productive
    ensures Contribution(productive, 0, boxFlags, inverterFlag) == Sum(boxFlags)
    ensures Contribution(productive, 0, boxFlags, inverterFlag) == PlainContribution(productive, boxFlags)
  {
    if productive == 0 {
      SumOfZeros(boxFlags);
    }
  }

  /** While a group's communication is out, its contribution in a
      productive hour is its inverter's flag times its number of boxes,
      whatever the boxes report. */
  lemma ContributionDuringOutage(boxFlags: seq<Bit>, inverterFlag: Bit)
    ensures Contribution(1, 1, boxFlags, inverterFlag) == inverterFlag * |boxFlags|
  {
  }

  /** The contribution column of one group over the period. */
  function GroupContributions(productive: seq<Bit>, outage: seq<Bit>, boxFlags: seq<seq<Bit>>,
                              inverterFlags: seq<Bit>): (cs: seq<nat>)
    requires |outage| == |productive| && |inverterFlags| == |productive|
    requires forall b :: 0 <= b < |boxFlags| ==> |boxFlags[b]| == |productive|
    ensures |cs| == |productive|
    ensures forall h :: 0 <= h < |cs| ==>
      cs[h] == Contribution(productive[h], outage[h], Column(boxFlags, h), inverterFlags[h])
  {
    seq(|productive|, h requires 0 <= h < |productive| =>
      Contribution(productive[h], outage[h], Column(boxFlags, h), inverterFlags[h]))
  }

  /** Contributions of every group. Group `g` is paired with the outage and
      inverter columns at the same position: `availability_calc` numbers both with
      one counter. */
  function PlantContributions(productive: seq<Bit>, outage: seq<seq<Bit>>, boxFlags: seq<seq<seq<Bit>>>,
                              inverterFlags: seq<seq<Bit>>): (cs: seq<seq<nat>>)
    requires |boxFlags| <= |outage| && |boxFlags| <= |inverterFlags|
    requires forall k :: 0 <= k < |outage| ==> |outage[k]| == |productive|
    requires forall k :: 0 <= k < |inverterFlags| ==> |inverterFlags[k]| == |productive|
    requires forall g, b :: 0 <= g < |boxFlags| && 0 <= b < |boxFlags[g]| ==> |boxFlags[g][b]| == |productive|
    ensures |cs| == |boxFlags|
    ensures forall g :: 0 <= g < |cs| ==>
      cs[g] == GroupContributions(productive, outage[g], boxFlags[g], inverterFlags[g])
  {
    seq(|boxFlags|, g requires 0 <= g < |boxFlags| =>
      GroupContributions(productive, outage[g], boxFlags[g], inverterFlags[g]))
  }

  /** The fraction `part / total` of a positive whole. */
  function Share(part: int, total: int): (r: real)
    requires total > 0
    ensures r * total as real == part as real
  {
    part as real / total as real
  }

  /** A part between 0 and the whole is a fraction in [0, 1], and is 0
      exactly when the part is. */
  lemma ShareInUnit(part: int, total: int)
    requires total > 0 && 0 <= part <= total
    ensures 0.0 <= Share(part, total) <= 1.0
    ensures Share(part, total) == 0.0 <==> part == 0
  {
    UnitFromProduct(Share(part, total), total as real, part as real);
  }

  /** HPm: the sum of the group contributions over the plant's number of
      string boxes, hour by hour. */
  function HPmSeries(productive: seq<Bit>, contributions: seq<seq<nat>>, totalBoxes: nat): (hpm: seq<real>)
    requires totalBoxes > 0
    requires forall g :: 0 <= g < |contributions| ==> |contributions[g]| == |productive|
    ensures |hpm| == |productive|
    ensures forall h :: 0 <= h < |hpm| ==>
      hpm[h] * totalBoxes as real == Sum(Column(contributions, h)) as real
  {
    seq(|productive|, h requires 0 <= h < |productive| =>
      Share(Sum(Column(contributions, h)), totalBoxes))
  }

  /** Am: HPm divided by the productive flag. Where the flag is 0 the
      engine divides 0 by 0; the model reports the hour as missing. */
  function AmSeries(productive: seq<Bit>, hpm: seq<real>): (am: seq<Option<real>>)
    requires |hpm| == |productive|
    ensures |am| == |productive|
    ensures forall h :: 0 <= h < |am| ==> (am[h].Some? <==> productive[h] == 1)
    ensures forall h :: 0 <= h < |am| && am[h].Some? ==> am[h].value == hpm[h]
  {
    seq(|productive|, h requires 0 <= h < |productive| =>
      if productive[h] == 0 then None else Some(hpm[h] / productive[h] as real))
  }

  /** The share of set flags in a non-empty column of flags. */
  function FlagMean(bs: seq<Bit>): (m: real)
    requires |bs| > 0
    ensures 0.0 <= m <= 1.0
    ensures m * |bs| as real == Sum(bs) as real
  {
    SumOfBitsBounded(bs);
    var m := Sum(bs) as real / |bs| as real;
    UnitFromProduct(m, |bs| as real, Sum(bs) as real);
    m
  }

  /** HPm-I: the mean of the inverter flags, hour by hour. */
  function HPmISeries(productive: seq<Bit>, inverterFlags: seq<seq<Bit>>): (hpmI: seq<real>)
    requires |inverterFlags| > 0
    requires forall k :: 0 <= k < |inverterFlags| ==> |inverterFlags[k]| == |productive|
    ensures |hpmI| == |productive|
    ensures forall h :: 0 <= h < |hpmI| ==> 0.0 <= hpmI[h] <= 1.0
    ensures forall h :: 0 <= h < |hpmI| ==>
      hpmI[h] * |inverterFlags| as real == Sum(Column(inverterFlags, h)) as real
  {
    seq(|productive|, h requires 0 <= h < |productive| => FlagMean(Column(inverterFlags, h)))
  }

  /** At one hour, the contributions sum to at most the plant's number of
      boxes, and to 0 outside productive hours. */
  lemma HourWithinTotal(productive: seq<Bit>, contributions: seq<seq<nat>>, sizes: seq<nat>, h: nat)
    requires |contributions| == |sizes| && h < |productive|
    requires forall g :: 0 <= g < |contributions| ==> |contributions[g]| == |productive|
    requires forall g, t :: 0 <= g < |contributions| && 0 <= t < |productive| ==>
      contributions[g][t] <= sizes[g]
    requires forall g, t :: 0 <= g < |contributions| && 0 <= t < |productive| && productive[t] == 0 ==>
      contributions[g][t] == 0
    ensures 0 <= Sum(Column(contributions, h)) <= Sum(sizes)
    ensures productive[h] == 0 ==> Sum(Column(contributions, h)) == 0
  {
    var col := Column(contributions, h);
    assert forall g :: 0 <= g < |col| ==> col[g] == contributions[g][h];
    SumNonNegative(col);
    SumMonotone(col, sizes);
    if productive[h] == 0 {
      SumOfZeros(col);
    }
  }

  /** The contributions lie between 0 and their group's size, so HPm lies in
      [0, 1]; and they are 0 outside productive hours, so HPm is too. */
  lemma HPmBounds(productive: seq<Bit>, contributions: seq<seq<nat>>, sizes: seq<nat>)
    requires |contributions| == |sizes| && Sum(sizes) > 0
    requires forall g :: 0 <= g < |contributions| ==> |contributions[g]| == |productive|
    requires forall g, t :: 0 <= g < |contributions| && 0 <= t < |productive| ==>
      contributions[g][t] <= sizes[g]
    requires forall g, t :: 0 <= g < |contributions| && 0 <= t < |productive| && productive[t] == 0 ==>
      contributions[g][t] == 0
    ensures forall h :: 0 <= h < |productive| ==>
      0.0 <= HPmSeries(productive, contributions, Sum(sizes))[h] <= productive[h] as real
  {
    var hpm := HPmSeries(productive, contributions, Sum(sizes));
    forall h | 0 <= h < |productive| ensures 0.0 <= hpm[h] <= productive[h] as real {
      HourWithinTotal(productive, contributions, sizes, h);
      ShareInUnit(Sum(Column(contributions, h)), Sum(sizes));
    }
  }

  /** Inverter flags are never set outside productive hours, so HPm-I is
      then 0. */
  lemma HPmIBounds(productive: seq<Bit>, inverterFlags: seq<seq<Bit>>)
    requires |inverterFlags| > 0
    requires forall k :: 0 <= k < |inverterFlags| ==> |inverterFlags[k]| == |productive|
    requires forall k, h :: 0 <= k < |inverterFlags| && 0 <= h < |productive| ==>
      inverterFlags[k][h] <= productive[h]
    ensures forall h :: 0 <= h < |productive| ==>
      0.0 <= HPmISeries(productive, inverterFlags)[h] <= productive[h] as real
  {
    var hpmI := HPmISeries(productive, inverterFlags);
    forall h | 0 <= h < |productive| ensures hpmI[h] <= productive[h] as real {
      if productive[h] == 0 {
        SumOfZeros(Column(inverterFlags, h));
      }
    }
  }

  /** `num / den`, missing where `availability_calc` would divide by zero. */
  function Ratio(num: real, den: real): (r: Option<real>)
    ensures r.None? <==> den == 0.0
    ensures r.Some? ==> r.value * den == num
  {
    if den == 0.0 then None else Some(num / den)
  }

  /** The three monthly ratios. */
  datatype MonthlySummary = MonthlySummary(
    stringBoxAvailability: Option<real>,
    inverterAvailability: Option<real>,
    irradiationGain: Option<real>)

  /** String-box and inverter availability are the sums of HPm and HPm-I
      over the number of productive hours; the irradiation gain is the
      excess of tilted over horizontal irradiation, relative to the
      horizontal, over the whole period. */
  function Summarize(productive: seq<Bit>, hpm: seq<real>, hpmI: seq<real>,
                     tilted: seq<Option<real>>, horizontal: seq<Option<real>>): (s: MonthlySummary)
    ensures s.stringBoxAvailability.None? <==> Sum(productive) == 0
    ensures s.inverterAvailability.None? <==> Sum(productive) == 0
    ensures s.stringBoxAvailability.Some? ==>
      s.stringBoxAvailability.value * Sum(productive) as real == SumReal(hpm)
    ensures s.inverterAvailability.Some? ==>
      s.inverterAvailability.value * Sum(productive) as real == SumReal(hpmI)
    ensures s.irradiationGain.None? <==> SumPresent(horizontal) == 0.0
    ensures s.irradiationGain.Some? ==>
      SumPresent(horizontal) * (1.0 + s.irradiationGain.value) == SumPresent(tilted)
  {
    var productiveHours := Sum(productive) as real;
    var gain := Ratio(SumPresent(tilted) - SumPresent(horizontal), SumPresent(horizontal));
    MonthlySummary(
      Ratio(SumReal(hpm), productiveHours),
      Ratio(SumReal(hpmI), productiveHours),
      gain)
  }

  /** With at least one productive hour, both availability ratios lie in
      [0, 1], since HPm and HPm-I never exceed the productive flag. */
  lemma MonthlyAvailabilityBounds(productive: seq<Bit>, hpm: seq<real>, hpmI: seq<real>,
                                  tilted: seq<Option<real>>, horizontal: seq<Option<real>>)
    requires |hpm| == |productive| && |hpmI| == |productive|
    requires forall h :: 0 <= h < |productive| ==> 0.0 <= hpm[h] <= productive[h] as real
    requires forall h :: 0 <= h < |productive| ==> 0.0 <= hpmI[h] <= productive[h] as real
    ensures var s := Summarize(productive, hpm, hpmI, tilted, horizontal);
      && (s.stringBoxAvailability.Some? ==> 0.0 <= s.stringBoxAvailability.value <= 1.0)
      && (s.inverterAvailability.Some? ==> 0.0 <= s.inverterAvailability.value <= 1.0)
  {
    var s := Summarize(productive, hpm, hpmI, tilted, horizontal);
    SumRealBoundedByBits(hpm, productive);
    SumRealBoundedByBits(hpmI, productive);
    SumOfBitsBounded(productive);
    var n := Sum(productive) as real;
    if n > 0.0 {
      RatioOfBoundedSum(SumReal(hpm), n);
      RatioOfBoundedSum(SumReal(hpmI), n);
    }
  }

  /** A value between 0 and a positive total, divided by it, lies in
      [0, 1]. */
  lemma RatioOfBoundedSum(num: real, den: real)
    requires den > 0.0 && 0.0 <= num <= den
    ensures Ratio(num, den).Some? && 0.0 <= Ratio(num, den).value <= 1.0
  {
    UnitFromProduct(Ratio(num, den).value, den, num);
  }
}

=== FILE: common.dfy ===
/** Shared vocabulary of the availability engine: readings that may be
    missing, results that may carry an error, 0/1 flags, and the sums the
    engine takes over hours, string boxes and inverters. */
module Common {

  /** A value that may be absent; a missing pandas reading (NaN) is `None`. */
  datatype Option<+T> = None | Some(value: T)

  /** Either the computed value or the first error the engine runs into. */
  datatype Result<+T, +E> = Ok(value: T) | Err(error: E)

  /** The ways a run of the engine ends without a report. */
  datatype Error =
      /** A declared string-box id is not of the form "<word> <int>-<rest>". */
    | MalformedScbId(id: string)
      /** A string-box group has no inverter column of the same number. */
    | MissingInverterColumn(group: nat)
      /** The plant has no string box at all, so HPm has no denominator. */
    | EmptyPlant

  /** An availability flag: exactly 0 or 1, one per entity and hour. */
  type Bit = b: int | 0 <= b <= 1

  /** Sum of a column of integers (flags, contributions, group sizes). */
  function Sum(xs: seq<int>): int
  {
    if |xs| == 0 then 0 else xs[0] + Sum(xs[1..])
  }

  /** Sum of a column of reals. */
  function SumReal(xs: seq<real>): real
  {
    if |xs| == 0 then 0.0 else xs[0] + SumReal(xs[1..])
  }

  /** Number of readings that are present (pandas `count`). */
  function CountPresent(xs: seq<Option<real>>): nat
  {
    if |xs| == 0 then 0
    else (if xs[0].Some? then 1 else 0) + CountPresent(xs[1..])
  }

  /** Sum of the readings that are present: pandas `sum` skips NaN, and a
      column with no reading at all sums to 0. */
  function SumPresent(xs: seq<Option<real>>): real
  {
    if |xs| == 0 then 0.0
    else (if xs[0].Some? then xs[0].value else 0.0) + SumPresent(xs[1..])
  }

  /** A column of `n` zero flags. */
  function Zeros(n: nat): (z: seq<Bit>)
    ensures |z| == n
    ensures forall i :: 0 <= i < n ==> z[i] == 0
  {
    seq(n, _ => 0)
  }

  /** The entries at hour `h` of a family of aligned series. */
  function Column<T>(rows: seq<seq<T>>, h: nat): (c: seq<T>)
    requires forall r :: 0 <= r < |rows| ==> h < |rows[r]|
    ensures |c| == |rows|
    ensures forall r :: 0 <= r < |rows| ==> c[r] == rows[r][h]
  {
    seq(|rows|, r requires 0 <= r < |rows| => rows[r][h])
  }

  /** The number of members of each group. */
  function Sizes<T>(groups: seq<seq<T>>): (n: seq<nat>)
    ensures |n| == |groups|
    ensures forall g :: 0 <= g < |groups| ==> n[g] == |groups[g]|
  {
    seq(|groups|, g requires 0 <= g < |groups| => |groups[g]|)
  }

  /** Counting flags: the sum of `n` flags lies between 0 and `n`. */
  lemma {:induction false} SumOfBitsBounded(bs: seq<Bit>)
    ensures 0 <= Sum(bs) <= |bs|
  {
    if |bs| > 0 {
      SumOfBitsBounded(bs[1..]);
    }
  }

  /** A column that is pointwise no larger sums to no more. */
  lemma {:induction false} SumMonotone(a: seq<int>, b: seq<int>)
    requires |a| == |b|
    requires forall i :: 0 <= i < |a| ==> a[i] <= b[i]
    ensures Sum(a) <= Sum(b)
  {
    if |a| > 0 {
      SumMonotone(a[1..], b[1..]);
    }
  }

  /** A column of non-negative values has a non-negative sum. */
  lemma {:induction false} SumNonNegative(a: seq<int>)
    requires forall i :: 0 <= i < |a| ==> 0 <= a[i]
    ensures 0 <= Sum(a)
  {
    if |a| > 0 {
      SumNonNegative(a[1..]);
    }
  }

  /** A column of zeros sums to zero. */
  lemma {:induction false} SumOfZeros(a: seq<int>)
    requires forall i :: 0 <= i < |a| ==> a[i] == 0
    ensures Sum(a) == 0
  {
    if |a| > 0 {
      SumOfZeros(a[1..]);
    }
  }

  /** Real values each bounded by a flag sum to at most the number of set
      flags. */
  lemma {:induction false} SumRealBoundedByBits(xs: seq<real>, bs: seq<Bit>)
    requires |xs| == |bs|
    requires forall i :: 0 <= i < |xs| ==> 0.0 <= xs[i] <= bs[i] as real
    ensures 0.0 <= SumReal(xs) <= Sum(bs) as real
  {
    if |xs| > 0 {
      SumRealBoundedByBits(xs[1..], bs[1..]);
    }
  }

  /** If every present reading lies in [lo, hi], the sum of the present
      readings lies between `lo` and `hi` times their count. */
  lemma {:induction false} SumPresentBounds(xs: seq<Option<real>>, lo: real, hi: real)
    requires forall i :: 0 <= i < |xs| && xs[i].Some? ==> lo <= xs[i].value <= hi
    ensures lo * CountPresent(xs) as real <= SumPresent(xs) <= hi * CountPresent(xs) as real
  {
    if |xs| > 0 {
      SumPresentBounds(xs[1..], lo, hi);
      var c := CountPresent(xs[1..]) as real;
      if xs[0].Some? {
        assert lo * (c + 1.0) == lo * c + lo;
        assert hi * (c + 1.0) == hi * c + hi;
      }
    }
  }

  /** Cancelling a positive factor: if `x * c` is `s` and `s` lies between
      `lo * c` and `hi * c`, then `x` lies between `lo` and `hi`. */
  lemma CancelPositiveFactor(x: real, c: real, s: real, lo: real, hi: real)
    requires c > 0.0 && x * c == s
    requires lo * c <= s && s <= hi * c
    ensures lo <= x <= hi
  {
    assert (x - lo) * c >= 0.0;
    assert (hi - x) * c >= 0.0;
  }

  /** A quotient of a count by a positive total it does not exceed lies in
      [0, 1], and is 0 when the count is. */
  lemma UnitFromProduct(x: real, t: real, s: real)
    requires t > 0.0 && x * t == s
    requires 0.0 <= s <= t
    ensures 0.0 <= x <= 1.0
    ensures s == 0.0 ==> x == 0.0
  {
    CancelPositiveFactor(x, t, s, 0.0, 1.0);
    if s == 0.0 {
      CancelPositiveFactor(x, t, s, 0.0, 0.0);
    }
  }
}

=== FILE: engine.dfy ===
/** The availability engine as one pipeline: from the aligned hourly input
    series and an outage declaration to the availability report, or to the
    first error `availability_calc` would raise. */
module Engine {
  import opened Common
  import opened Irradiance
  import opened Flags
  import opened Outage
  import opened Aggregation

  /** The already-aligned inputs of one reporting period. `groups[g]` holds
      the power series of the string boxes of the g-th group in the order
      the string-box tables are read; `inverters[k]` is the power series of
      the inverter in the k-th column of the inverter table. */
  datatype PlantData = PlantData(
    met: seq<MetHour>,
    groups: seq<seq<Series>>,
    inverters: seq<Series>)

  /** Every series shares the meteo index, hour for hour. */
  predicate Aligned(p: PlantData)
  {
    && (forall g, b :: 0 <= g < |p.groups| && 0 <= b < |p.groups[g]| ==> |p.groups[g][b]| == |p.met|)
    && (forall k :: 0 <= k < |p.inverters| ==> |p.inverters[k]| == |p.met|)
  }

  /** The string boxes without communication, and the windows that limit
      the outage; no window means the whole period. */
  datatype OutageDeclaration = OutageDeclaration(scbIds: seq<string>, intervals: seq<Interval>)

  /** Everything the engine computes. Per hour: `productive`, `tilted`
      (GPOAI), `horizontal` (GHI), `hpm`, `am`, `hpmI`. Per string box and
      hour: `boxFlags[g][b][h]`. Per inverter and hour: `inverterFlags` and
      the masked `outage` flags. Per group and hour: `contributions`. */
  datatype Report = Report(
    productive: seq<Bit>,
    tilted: seq<Option<real>>,
    horizontal: seq<Option<real>>,
    boxFlags: seq<seq<seq<Bit>>>,
    inverterFlags: seq<seq<Bit>>,
    outage: seq<seq<Bit>>,
    contributions: seq<seq<nat>>,
    hpm: seq<real>,
    am: seq<Option<real>>,
    hpmI: seq<real>,
    summary: MonthlySummary)

  /** The number of string boxes of the plant: the string-box table is the
      merge of the group tables, so it has one column per box. */
  function TotalBoxes(p: PlantData): nat
  {
    SumNonNegative(Sizes(p.groups));
    Sum(Sizes(p.groups))
  }

  /** The inputs the engine accepts: every declared id parses, every group
      has an inverter column of its number, and the plant has a string box. */
  predicate Accepted(p: PlantData, d: OutageDeclaration)
  {
    AllParse(d.scbIds) && |p.groups| <= |p.inverters| && TotalBoxes(p) > 0
  }

  /** The whole computation. The declared ids are parsed first; then each
      group needs an inverter column of its number; then HPm needs at least
      one string box. */
  function Compute(p: PlantData, d: OutageDeclaration): (r: Result<Report, Error>)
    requires Aligned(p)
    ensures r.Ok? <==> AllParse(d.scbIds) && |p.groups| <= |p.inverters| && TotalBoxes(p) > 0
    ensures !AllParse(d.scbIds) ==> r.Err? && FirstMalformed(d.scbIds, r.error)
    ensures AllParse(d.scbIds) && |p.groups| > |p.inverters| ==>
      r == Err(MissingInverterColumn(|p.inverters| + 1))
    ensures AllParse(d.scbIds) && |p.groups| <= |p.inverters| && TotalBoxes(p) == 0 ==>
      r == Err(EmptyPlant)
    ensures r.Ok? ==> Shaped(r.value, p)
  {
    match AffectedInverters(d.scbIds)
    case Err(e) => Err(e)
    case Ok(affected) =>
      if |p.groups| > |p.inverters| then Err(MissingInverterColumn(|p.inverters| + 1))
      else if TotalBoxes(p) == 0 then Err(EmptyPlant)
      else
        assert |p.groups| > 0;
        var productive := ProductiveSeries(p.met);
        var boxFlags := PlantBoxFlags(p.groups, productive);
        var inverterFlags := PlantInverterFlags(p.inverters, productive);
        var outage := MaskAll(OutageFlags(affected, |p.inverters|, productive), d.intervals);
        var contributions := PlantContributions(productive, outage, boxFlags, inverterFlags);
        var hpm := HPmSeries(productive, contributions, TotalBoxes(p));
        var hpmI := HPmISeries(productive, inverterFlags);
        var tilted := TiltedSeries(p.met);
        var horizontal := HorizontalSeries(p.met);
        Ok(Report(
          productive, tilted, horizontal, boxFlags, inverterFlags, outage, contributions,
          hpm, AmSeries(productive, hpm), hpmI,
          Summarize(productive, hpm, hpmI, tilted, horizontal)))
  }

  /** The report is indexed like the input: one entry per hour in every
      series, one flag series per string box and per inverter, one
      contribution series per group. */
  predicate Shaped(r: Report, p: PlantData)
  {
    var n := |p.met|;
    && |r.productive| == n && |r.tilted| == n && |r.horizontal| == n
    && |r.hpm| == n && |r.am| == n && |r.hpmI| == n
    && |r.boxFlags| == |p.groups|
    && (forall g :: 0 <= g < |p.groups| ==> |r.boxFlags[g]| == |p.groups[g]|)
    && (forall g, b :: 0 <= g < |p.groups| && 0 <= b < |p.groups[g]| ==> |r.boxFlags[g][b]| == n)
    && |r.inverterFlags| == |p.inverters| && |r.outage| == |p.inverters|
    && (forall k :: 0 <= k < |p.inverters| ==> |r.inverterFlags[k]| == n && |r.outage[k]| == n)
    && |r.contributions| == |p.groups|
    && (forall g :: 0 <= g < |p.groups| ==> |r.contributions[g]| == n)
  }

  /** Each flag of the report means what the flag rules say: a string box
      is available exactly in productive hours where its power exceeds 5 kW,
      an inverter exactly in productive hours where its power is positive or
      missing. */
  lemma ReportFlags(p: PlantData, d: OutageDeclaration, g: nat, b: nat, k: nat, h: nat)
    requires Aligned(p) && Accepted(p, d)
    requires g < |p.groups| && b < |p.groups[g]| && k < |p.inverters| && h < |p.met|
    ensures var r := Compute(p, d).value;
      && r.productive[h] == Productive(p.met[h])
      && (r.boxFlags[g][b][h] == 1 <==>
            r.productive[h] == 1 && p.groups[g][b][h].Some? && p.groups[g][b][h].value > BoxPowerThreshold)
      && (r.inverterFlags[k][h] == 1 <==>
            r.productive[h] == 1 && (p.inverters[k][h].None? || p.inverters[k][h].value > 0.0))
  {
  }

  /** A group's contribution lies between 0 and its number of string boxes,
      and is 0 outside productive hours. */
  lemma ReportContributionBounds(p: PlantData, d: OutageDeclaration, g: nat, h: nat)
    requires Aligned(p) && Accepted(p, d)
    requires g < |p.groups| && h < |p.met|
    ensures var r := Compute(p, d).value;
      && r.contributions[g][h] <= |p.groups[g]|
      && (r.productive[h] == 0 ==> r.contributions[g][h] == 0)
  {
  }

  /** Each group's hourly contribution in the report is computed from that
      hour's productive flag, the group inverter's masked outage flag, the
      group's box flags and the inverter's flag. */
  lemma ReportContributionValue(p: PlantData, d: OutageDeclaration, g: nat, h: nat)
    requires Aligned(p) && Accepted(p, d)
    requires g < |p.groups| && h < |p.met|
    ensures var r := Compute(p, d).value;
      r.contributions[g][h] ==
        Contribution(r.productive[h], r.outage[g][h], Column(r.boxFlags[g], h), r.inverterFlags[g][h])
  {
  }

  /** The report's HPm is the plant-level share of the report's group
      contributions over the plant's number of string boxes, and its HPm-I
      the mean of the report's inverter flags. */
  lemma ReportHourlySeries(p: PlantData, d: OutageDeclaration)
    requires Aligned(p) && Accepted(p, d)
    ensures var r := Compute(p, d).value;
      && r.hpm == HPmSeries(r.productive, r.contributions, TotalBoxes(p))
      && r.hpmI == HPmISeries(r.productive, r.inverterFlags)
  {
  }

  /** HPm and HPm-I lie in [0, 1] and are 0 outside productive hours; Am is
      HPm in productive hours and missing in the others. */
  lemma ReportHourlyBounds(p: PlantData, d: OutageDeclaration, h: nat)
    requires Aligned(p) && Accepted(p, d)
    requires h < |p.met|
    ensures var r := Compute(p, d).value;
      && 0.0 <= r.hpm[h] <= r.productive[h] as real <= 1.0
      && 0.0 <= r.hpmI[h] <= r.productive[h] as real
      && (r.productive[h] == 1 ==> r.am[h] == Some(r.hpm[h]))
      && (r.productive[h] == 0 ==> r.am[h] == None)
  {
    var r := Compute(p, d).value;
    HPmBoundsInReport(p, d);
    HPmIBounds(r.productive, r.inverterFlags);
  }

  /** Every hourly HPm of the report lies between 0 and the hour's
      productive flag. */
  lemma HPmBoundsInReport(p: PlantData, d: OutageDeclaration)
    requires Aligned(p) && Accepted(p, d)
    ensures var r := Compute(p, d).value;
      forall h :: 0 <= h < |p.met| ==> 0.0 <= r.hpm[h] <= r.productive[h] as real
  {
    var r := Compute(p, d).value;
    var sizes := Sizes(p.groups);
    forall g, h | 0 <= g < |r.contributions| && 0 <= h < |r.productive|
      ensures r.contributions[g][h] <= sizes[g]
      ensures r.productive[h] == 0 ==> r.contributions[g][h] == 0
    {
      ReportContributionBounds(p, d, g, h);
    }
    HPmBounds(r.productive, r.contributions, sizes);
  }

  /** With at least one productive hour both monthly availabilities are
      defined and lie in [0, 1]; with none they are missing. The irradiation
      gain is missing exactly when the horizontal irradiation sums to 0. */
  lemma ReportMonthlyBounds(p: PlantData, d: OutageDeclaration)
    requires Aligned(p) && Accepted(p, d)
    ensures var r := Compute(p, d).value; var s := r.summary;
      && (s.stringBoxAvailability.Some? <==> exists h :: 0 <= h < |p.met| && r.productive[h] == 1)
      && (s.inverterAvailability.Some? <==> exists h :: 0 <= h < |p.met| && r.productive[h] == 1)
      && (s.stringBoxAvailability.Some? ==> 0.0 <= s.stringBoxAvailability.value <= 1.0)
      && (s.inverterAvailability.Some? ==> 0.0 <= s.inverterAvailability.value <= 1.0)
      && (s.irradiationGain.None? <==> SumPresent(r.horizontal) == 0.0)
  {
    var r := Compute(p, d).value;
    forall h | 0 <= h < |p.met| ensures 0.0 <= r.hpmI[h] <= r.productive[h] as real {
      ReportHourlyBounds(p, d, h);
    }
    HPmBoundsInReport(p, d);
    MonthlyAvailabilityBounds(r.productive, r.hpm, r.hpmI, r.tilted, r.horizontal);
    SomeFlagSet(r.productive);
  }

  /** The monthly string-box availability is the sum of HPm over the
      number of productive hours, the inverter availability the sum of
      HPm-I over the same count, and the gain the excess of the summed GPOAI
      over the summed GHI, relative to the latter; `Ratio` states what each
      quotient is. */
  lemma ReportMonthlyValues(p: PlantData, d: OutageDeclaration)
    requires Aligned(p) && Accepted(p, d)
    ensures var r := Compute(p, d).value; var s := r.summary;
      && s.stringBoxAvailability == Ratio(SumReal(r.hpm), Sum(r.productive) as real)
      && s.inverterAvailability == Ratio(SumReal(r.hpmI), Sum(r.productive) as real)
      && s.irradiationGain ==
           Ratio(SumPresent(r.tilted) - SumPresent(r.horizontal), SumPresent(r.horizontal))
  {
  }

  /** The report's GPOAI and GHI are the hourly irradiation of the tilted
      and of the horizontal pyranometers. */
  lemma ReportIrradiation(p: PlantData, d: OutageDeclaration, h: nat)
    requires Aligned(p) && Accepted(p, d)
    requires h < |p.met|
    ensures var r := Compute(p, d).value;
      && r.tilted[h] == Irradiation(p.met[h].Tilted())
      && r.horizontal[h] == Irradiation(p.met[h].Horizontal())
  {
  }

  /** Flags sum to a positive count exactly when one of them is set. */
  lemma {:induction false} SomeFlagSet(bs: seq<Bit>)
    ensures Sum(bs) != 0 <==> exists i :: 0 <= i < |bs| && bs[i] == 1
  {
    if |bs| > 0 {
      SomeFlagSet(bs[1..]);
      SumOfBitsBounded(bs[1..]);
      if exists i :: 0 <= i < |bs| - 1 && bs[1..][i] == 1 {
        var i :| 0 <= i < |bs| - 1 && bs[1..][i] == 1;
        assert bs[i + 1] == 1;
      }
      if exists i :: 0 <= i < |bs| && bs[i] == 1 {
        var i :| 0 <= i < |bs| && bs[i] == 1;
        if i > 0 { assert bs[1..][i - 1] == 1; }
      }
    }
  }

  /** An inverter's outage flag is set exactly in the productive hours that
      every declared window covers, when one of the declared string boxes
      belongs to it; it is never set otherwise. */
  lemma ReportOutageFlags(p: PlantData, d: OutageDeclaration, k: nat, h: nat)
    requires Aligned(p) && Accepted(p, d)
    requires k < |p.inverters| && h < |p.met|
    ensures var r := Compute(p, d).value;
      r.outage[k][h] == 1 <==> Names(d.scbIds, k + 1) && r.productive[h] == 1 && InsideAll(d.intervals, h)
  {
    var r := Compute(p, d).value;
    var affected := AffectedInverters(d.scbIds).value;
    var raw := OutageFlags(affected, |p.inverters|, r.productive);
    assert r.outage == MaskAll(raw, d.intervals);
    assert r.outage[k][h] == (if InsideAll(d.intervals, h) then raw[k][h] else 0);
    assert raw[k][h] == (if k + 1 in affected then r.productive[h] else 0);
    assert k + 1 in affected <==> Names(d.scbIds, k + 1);
  }

  /** An empty declaration overrides nothing: every contribution is the
      plain count of available string boxes in productive hours, whatever
      windows are given. */
  lemma EmptyDeclarationNoOverride(p: PlantData, intervals: seq<Interval>, g: nat, h: nat)
    requires Aligned(p) && Accepted(p, OutageDeclaration([], intervals))
    requires g < |p.groups| && h < |p.met|
    ensures var r := Compute(p, OutageDeclaration([], intervals)).value;
      r.contributions[g][h] == PlainContribution(r.productive[h], Column(r.boxFlags[g], h))
  {
    var r := Compute(p, OutageDeclaration([], intervals)).value;
    assert !Names([], g + 1);
    ReportOutageFlags(p, OutageDeclaration([], intervals), g, h);
    assert r.outage[g][h] == 0;
    var col := Column(r.boxFlags[g], h);
    forall b | 0 <= b < |col| ensures col[b] <= r.productive[h] {
      ReportFlags(p, OutageDeclaration([], intervals), g, b, g, h);
    }
    ContributionWithoutOutage(r.productive[h], col, r.inverterFlags[g][h]);
  }

  /** A declared string box of group g + 1 with no window: in every
      productive hour the group counts as its inverter's flag times its
      number of string boxes, whatever the boxes report. */
  lemma DeclaredOutageOverridesGroup(p: PlantData, d: OutageDeclaration, g: nat, h: nat)
    requires Aligned(p) && Accepted(p, d)
    requires d.intervals == [] && Names(d.scbIds, g + 1)
    requires g < |p.groups| && h < |p.met|
    ensures var r := Compute(p, d).value;
      r.productive[h] == 1 ==> r.contributions[g][h] == r.inverterFlags[g][h] * |p.groups[g]|
  {
    ReportOutageFlags(p, d, g, h);
  }
}

=== FILE: flags.dfy ===
/** The string-box and inverter availability flags: each hour, each
    device is available (1) or not (0), and only productive hours count. */
module Flags {
  import opened Common

  /** A string box is producing when its active power exceeds 5 kW. */
  const BoxPowerThreshold: real := 5.0

  /** A power series of one device; `None` is a missing reading. */
  type Series = seq<Option<real>>

  /** The availability flag of one string box at one hour. A missing
      reading never exceeds the threshold, so it reads as unavailable. */
  function BoxFlag(power: Option<real>, productive: Bit): (f: Bit)
    ensures f <= productive
    ensures f == 1 <==> productive == 1 && power.Some? && power.value > BoxPowerThreshold
  {
    if power.Some? && power.value > BoxPowerThreshold && productive == 1 then 1 else 0
  }

  /** The availability flag of one inverter at one hour. A missing reading
      reads as available, unlike a string box's. */
  function InverterFlag(power: Option<real>, productive: Bit): (f: Bit)
    ensures f <= productive
    ensures f == 1 <==> productive == 1 && (power.None? || power.value > 0.0)
  {
    if (power.None? || power.value > 0.0) && productive == 1 then 1 else 0
  }

  /** Flags of one string box over the period. */
  function BoxFlagSeries(power: Series, productive: seq<Bit>): (fs: seq<Bit>)
    requires |power| == |productive|
    ensures |fs| == |power|
    ensures forall h :: 0 <= h < |fs| ==> fs[h] == BoxFlag(power[h], productive[h])
  {
    seq(|power|, h requires 0 <= h < |power| => BoxFlag(power[h], productive[h]))
  }

  /** Flags of every string box of every group: `[group][box][hour]`. */
  function PlantBoxFlags(groups: seq<seq<Series>>, productive: seq<Bit>): (fs: seq<seq<seq<Bit>>>)
    requires forall g, b :: 0 <= g < |groups| && 0 <= b < |groups[g]| ==> |groups[g][b]| == |productive|
    ensures |fs| == |groups|
    ensures forall g :: 0 <= g < |fs| ==> |fs[g]| == |groups[g]|
    ensures forall g, b :: 0 <= g < |fs| && 0 <= b < |fs[g]| ==>
      fs[g][b] == BoxFlagSeries(groups[g][b], productive)
  {
    seq(|groups|, g requires 0 <= g < |groups| =>
      seq(|groups[g]|, b requires 0 <= b < |groups[g]| => BoxFlagSeries(groups[g][b], productive)))
  }

  /** Flags of one inverter over the period. */
  function InverterFlagSeries(power: Series, productive: seq<Bit>): (fs: seq<Bit>)
    requires |power| == |productive|
    ensures |fs| == |power|
    ensures forall h :: 0 <= h < |fs| ==> fs[h] == InverterFlag(power[h], productive[h])
  {
    seq(|power|, h requires 0 <= h < |power| => InverterFlag(power[h], productive[h]))
  }

  /** Flags of every inverter, in the order of the inverter table's columns:
      `[inverter][hour]`. */
  function PlantInverterFlags(inverters: seq<Series>, productive: seq<Bit>): (fs: seq<seq<Bit>>)
    requires forall k :: 0 <= k < |inverters| ==> |inverters[k]| == |productive|
    ensures |fs| == |inverters|
    ensures forall k :: 0 <= k < |fs| ==> fs[k] == InverterFlagSeries(inverters[k], productive)
  {
    seq(|inverters|, k requires 0 <= k < |inverters| => InverterFlagSeries(inverters[k], productive))
  }

  /** Missing data is read in opposite ways: a missing string-box reading
      gives 0, a missing inverter reading gives the productive flag. */
  lemma MissingReadingAsymmetry(productive: Bit)
    ensures BoxFlag(None, productive) == 0
    ensures InverterFlag(None, productive) == productive
  {
  }

  /** Outside productive hours every flag is 0, whatever the power. */
  lemma NonProductiveHourClearsFlags(box: Option<real>, inverter: Option<real>)
    ensures BoxFlag(box, 0) == 0 && InverterFlag(inverter, 0) == 0
  {
  }
}

=== FILE: irradiance.dfy ===
/** The irradiance stage: from the hourly pyranometer readings to the
    productive-hour flag and the tilted and horizontal irradiation. */
module Irradiance {
  import opened Common

  /** An hour is productive when the tilted irradiance exceeds 300 W/m2. */
  const ProductiveThreshold: real := 300.0

  /** Hourly mean irradiance in W/m2 divided by this gives kWh/m2. */
  const WattHoursPerKilowattHour: real := 1000.0

  /** One row of the meteo table. RAD_1 and RAD_2 are the horizontal
      pyranometers, RAD_3 to RAD_5 the tilted (plane-of-array) ones. */
  datatype MetHour = MetHour(
    rad1: Option<real>, rad2: Option<real>,
    rad3: Option<real>, rad4: Option<real>, rad5: Option<real>)
  {
    function Tilted(): seq<Option<real>> { [rad3, rad4, rad5] }

    function Horizontal(): seq<Option<real>> { [rad1, rad2] }
  }

  /** The row mean pandas takes with `mean(axis=1)`: the average of the
      readings that are present, missing when none is. */
  function Mean(xs: seq<Option<real>>): (m: Option<real>)
    ensures m.None? <==> CountPresent(xs) == 0
    ensures m.Some? ==> m.value * CountPresent(xs) as real == SumPresent(xs)
  {
    if CountPresent(xs) == 0 then None
    else Some(SumPresent(xs) / CountPresent(xs) as real)
  }

  /** The productive flag of one hour. */
  function Productive(m: MetHour): (p: Bit)
    ensures p == 1 <==>
      && CountPresent(m.Tilted()) > 0
      && SumPresent(m.Tilted()) > ProductiveThreshold * CountPresent(m.Tilted()) as real
  {
    match Mean(m.Tilted())
    case None => 0
    case Some(x) =>
      var c := CountPresent(m.Tilted()) as real;
      assert x * c > ProductiveThreshold * c <==> x > ProductiveThreshold;
      if x > ProductiveThreshold then 1 else 0
  }

  /** Mean of the present readings, scaled from W/m2 to kWh/m2. */
  function Irradiation(xs: seq<Option<real>>): (e: Option<real>)
    ensures e.None? <==> CountPresent(xs) == 0
    ensures e.Some? ==>
      e.value * WattHoursPerKilowattHour * CountPresent(xs) as real == SumPresent(xs)
  {
    match Mean(xs)
    case None => None
    case Some(x) => Some(x / WattHoursPerKilowattHour)
  }

  /** The productive-flag column over the whole period. */
  function ProductiveSeries(met: seq<MetHour>): (ps: seq<Bit>)
    ensures |ps| == |met|
    ensures forall h :: 0 <= h < |met| ==> ps[h] == Productive(met[h])
  {
    seq(|met|, h requires 0 <= h < |met| => Productive(met[h]))
  }

  /** The tilted irradiation column (GPOAI), in kWh/m2. */
  function TiltedSeries(met: seq<MetHour>): (ts: seq<Option<real>>)
    ensures |ts| == |met|
    ensures forall h :: 0 <= h < |met| ==> ts[h] == Irradiation(met[h].Tilted())
  {
    seq(|met|, h requires 0 <= h < |met| => Irradiation(met[h].Tilted()))
  }

  /** The horizontal irradiation column (GHI), in kWh/m2. */
  function HorizontalSeries(met: seq<MetHour>): (hs: seq<Option<real>>)
    ensures |hs| == |met|
    ensures forall h :: 0 <= h < |met| ==> hs[h] == Irradiation(met[h].Horizontal())
  {
    seq(|met|, h requires 0 <= h < |met| => Irradiation(met[h].Horizontal()))
  }

  /** The mean of the present readings lies between their bounds. */
  lemma MeanBetween(xs: seq<Option<real>>, lo: real, hi: real)
    requires forall i :: 0 <= i < |xs| && xs[i].Some? ==> lo <= xs[i].value <= hi
    requires CountPresent(xs) > 0
    ensures lo <= Mean(xs).value <= hi
  {
    SumPresentBounds(xs, lo, hi);
    CancelPositiveFactor(Mean(xs).value, CountPresent(xs) as real, SumPresent(xs), lo, hi);
  }

  /** An hour whose present tilted readings all reach some level above the
      threshold is productive. */
  lemma ProductiveWhenAllAbove(m: MetHour, lo: real)
    requires lo > ProductiveThreshold
    requires CountPresent(m.Tilted()) > 0
    requires forall i :: 0 <= i < |m.Tilted()| && m.Tilted()[i].Some? ==> lo <= m.Tilted()[i].value
    ensures Productive(m) == 1
  {
    var ts := m.Tilted();
    var hi := lo;
    if ts[0].Some? && ts[0].value > hi { hi := ts[0].value; }
    if ts[1].Some? && ts[1].value > hi { hi := ts[1].value; }
    if ts[2].Some? && ts[2].value > hi { hi := ts[2].value; }
    MeanBetween(ts, lo, hi);
  }

  /** An hour whose present tilted readings are all at most some level not
      above the threshold is not productive; neither is an hour with no
      tilted reading at all. */
  lemma NotProductiveWhenAllAtMost(m: MetHour, hi: real)
    requires hi <= ProductiveThreshold
    requires forall i :: 0 <= i < |m.Tilted()| && m.Tilted()[i].Some? ==> m.Tilted()[i].value <= hi
    ensures Productive(m) == 0
  {
    var ts := m.Tilted();
    if CountPresent(ts) > 0 {
      var lo := hi;
      if ts[0].Some? && ts[0].value < lo { lo := ts[0].value; }
      if ts[1].Some? && ts[1].value < lo { lo := ts[1].value; }
      if ts[2].Some? && ts[2].value < lo { lo := ts[2].value; }
      MeanBetween(ts, lo, hi);
    }
  }

  /** Tilted readings 350, 360 and 340 W/m2 make a productive hour. */
  lemma ProductiveScenario()
    ensures Productive(MetHour(None, None, Some(350.0), Some(360.0), Some(340.0))) == 1
  {
    ProductiveWhenAllAbove(MetHour(None, None, Some(350.0), Some(360.0), Some(340.0)), 340.0);
  }

  /** Tilted readings averaging 250 W/m2 make a non-productive hour. */
  lemma NonProductiveScenario()
    ensures Productive(MetHour(None, None, Some(250.0), Some(250.0), Some(250.0))) == 0
  {
    NotProductiveWhenAllAtMost(MetHour(None, None, Some(250.0), Some(250.0), Some(250.0)), 250.0);
  }
}

=== FILE: outage.dfy ===
/** The communication-outage override: which inverters have string boxes
    without communication, their hourly outage flags, and the restriction
    of those flags to the declared time windows. */
module Outage {
  import opened Common
  import opened ScbIds

  /** A declared window of hours, both ends included. */
  datatype Interval = Interval(first: int, last: int)

  /** Whether hour `h` lies in the window. */
  predicate Covers(iv: Interval, h: int)
  {
    iv.first <= h <= iv.last
  }

  /** Whether hour `h` lies in every one of the windows. */
  predicate InsideAll(ivs: seq<Interval>, h: int)
  {
    forall j :: 0 <= j < |ivs| ==> Covers(ivs[j], h)
  }

  /** `ids[i]` is the first id that does not parse, and `e` reports it. */
  predicate FirstMalformedAt(ids: seq<string>, e: Error, i: int)
  {
    && 0 <= i < |ids|
    && ParseScbId(ids[i]).None?
    && e == MalformedScbId(ids[i])
    && forall j :: 0 <= j < i ==> ParseScbId(ids[j]).Some?
  }

  /** `e` reports the first id of `ids` that does not parse. */
  predicate FirstMalformed(ids: seq<string>, e: Error)
  {
    exists i :: 0 <= i < |ids| && FirstMalformedAt(ids, e, i)
  }

  /** Every declared id parses. */
  predicate AllParse(ids: seq<string>)
  {
    forall i :: 0 <= i < |ids| ==> ParseScbId(ids[i]).Some?
  }

  /** Some declared id names inverter `inv`. */
  predicate Names(ids: seq<string>, inv: nat)
  {
    exists i :: 0 <= i < |ids| && ParseScbId(ids[i]) == Some(inv)
  }

  /** The set of inverter numbers of the declared string boxes, duplicates
      removed. The first id that does not parse ends the run. */
  function AffectedInverters(ids: seq<string>): (r: Result<set<nat>, Error>)
    ensures r.Ok? <==> AllParse(ids)
    ensures r.Ok? ==> forall inv :: inv in r.value <==> Names(ids, inv)
    ensures r.Err? ==> FirstMalformed(ids, r.error)
  {
    if |ids| == 0 then Ok({})
    else
      match ParseScbId(ids[0])
      case None =>
        assert FirstMalformedAt(ids, MalformedScbId(ids[0]), 0);
        Err(MalformedScbId(ids[0]))
      case Some(inv) =>
        var tail := ids[1..];
        assert forall i :: 0 <= i < |tail| ==> tail[i] == ids[i + 1];
        assert AllParse(ids) <==> AllParse(tail) by {
          if AllParse(tail) {
            forall i | 0 <= i < |ids| ensures ParseScbId(ids[i]).Some? {
              if i > 0 { assert ids[i] == tail[i - 1]; }
            }
          }
        }
        match AffectedInverters(tail)
        case Err(e) =>
          assert FirstMalformed(ids, e) by {
            var i :| 0 <= i < |tail| && FirstMalformedAt(tail, e, i);
            forall j | 0 <= j < i + 1 ensures ParseScbId(ids[j]).Some? {
              if j > 0 { assert ids[j] == tail[j - 1]; }
            }
            assert FirstMalformedAt(ids, e, i + 1);
          }
          Err(e)
        case Ok(rest) =>
          assert forall x :: x in {inv} + rest <==> Names(ids, x) by {
            forall x ensures x in {inv} + rest <==> Names(ids, x) {
              if x in rest {
                var i :| 0 <= i < |tail| && ParseScbId(tail[i]) == Some(x);
                assert ParseScbId(ids[i + 1]) == Some(x);
              }
              if x == inv {
                assert ParseScbId(ids[0]) == Some(x);
              }
              if Names(ids, x) {
                var i :| 0 <= i < |ids| && ParseScbId(ids[i]) == Some(x);
                if i > 0 {
                  assert ParseScbId(tail[i - 1]) == Some(x);
                  assert Names(tail, x);
                }
              }
            }
          }
          Ok({inv} + rest)
  }

  /** The affected set depends only on which ids are declared, not on their
      order or repetition. */
  lemma AffectedIgnoresOrderAndRepetition(ids1: seq<string>, ids2: seq<string>)
    requires forall id :: id in ids1 <==> id in ids2
    ensures AffectedInverters(ids1).Ok? <==> AffectedInverters(ids2).Ok?
    ensures AffectedInverters(ids1).Ok? ==>
      AffectedInverters(ids1).value == AffectedInverters(ids2).value
  {
    SameIdsSameParse(ids1, ids2);
    SameIdsSameParse(ids2, ids1);
    if AllParse(ids1) {
      var s1, s2 := AffectedInverters(ids1).value, AffectedInverters(ids2).value;
      forall x | x in s1 ensures x in s2 {
        assert Names(ids1, x);
      }
      forall x | x in s2 ensures x in s1 {
        assert Names(ids2, x);
      }
    }
  }

  /** Declarations with the same ids parse alike and name the same
      inverters. */
  lemma SameIdsSameParse(ids1: seq<string>, ids2: seq<string>)
    requires forall id :: id in ids1 ==> id in ids2
    ensures AllParse(ids2) ==> AllParse(ids1)
    ensures forall x: nat :: Names(ids1, x) ==> Names(ids2, x)
  {
    if AllParse(ids2) {
      forall i | 0 <= i < |ids1| ensures ParseScbId(ids1[i]).Some? {
        assert ids1[i] in ids2;
        var j :| 0 <= j < |ids2| && ids2[j] == ids1[i];
      }
    }
    forall x: nat | Names(ids1, x) ensures Names(ids2, x) {
      var i :| 0 <= i < |ids1| && ParseScbId(ids1[i]) == Some(x);
      assert ids1[i] in ids2;
      var j :| 0 <= j < |ids2| && ids2[j] == ids1[i];
      assert ParseScbId(ids2[j]) == Some(x);
    }
  }

  /** The outage flags before any window is applied, one column per
      inverter: column `k` belongs to inverter number `k + 1`, and is the
      productive flag when that inverter is affected, 0 otherwise. */
  function OutageFlags(affected: set<nat>, inverterCount: nat, productive: seq<Bit>): (fs: seq<seq<Bit>>)
    ensures |fs| == inverterCount
    ensures forall k :: 0 <= k < inverterCount ==> |fs[k]| == |productive|
    ensures forall k, h :: 0 <= k < inverterCount && 0 <= h < |productive| ==>
      fs[k][h] == (if k + 1 in affected then productive[h] else 0)
  {
    seq(inverterCount, k => if k + 1 in affected then productive else Zeros(|productive|))
  }

  /** An inverter without declared string boxes never has an outage. */
  lemma UnaffectedNeverOut(affected: set<nat>, inverterCount: nat, productive: seq<Bit>, k: nat)
    requires k < inverterCount && k + 1 !in affected
    ensures OutageFlags(affected, inverterCount, productive)[k] == Zeros(|productive|)
  {
  }

  /** An affected inverter is out exactly in the productive hours. */
  lemma AffectedOutWhenProductive(affected: set<nat>, inverterCount: nat, productive: seq<Bit>, k: nat)
    requires k < inverterCount && k + 1 in affected
    ensures OutageFlags(affected, inverterCount, productive)[k] == productive
  {
  }

  /** No declared string box: no outage anywhere. */
  lemma EmptyDeclarationNoOutage(inverterCount: nat, productive: seq<Bit>)
    ensures AffectedInverters([]) == Ok({})
    ensures forall k :: 0 <= k < inverterCount ==>
      OutageFlags({}, inverterCount, productive)[k] == Zeros(|productive|)
  {
  }

  /** Being inside all windows is being inside the first and inside the
      rest. */
  lemma InsideAllFirstAndRest(ivs: seq<Interval>, h: int)
    requires |ivs| > 0
    ensures InsideAll(ivs, h) <==> Covers(ivs[0], h) && InsideAll(ivs[1..], h)
  {
    if Covers(ivs[0], h) && InsideAll(ivs[1..], h) {
      forall j | 0 <= j < |ivs| ensures Covers(ivs[j], h) {
        if j > 0 { assert ivs[j] == ivs[1..][j - 1]; }
      }
    }
    if InsideAll(ivs, h) {
      forall j | 0 <= j < |ivs| - 1 ensures Covers(ivs[1..][j], h) {
        assert ivs[1..][j] == ivs[j + 1];
      }
    }
  }

  /** Every column keeps its value in the hours the window covers and is 0
      in every other hour. */
  function MaskColumns(cols: seq<seq<Bit>>, iv: Interval): (r: seq<seq<Bit>>)
    ensures |r| == |cols|
    ensures forall k :: 0 <= k < |cols| ==> |r[k]| == |cols[k]|
    ensures forall k, h :: 0 <= k < |cols| && 0 <= h < |cols[k]| ==>
      r[k][h] == (if Covers(iv, h) then cols[k][h] else 0)
  {
    seq(|cols|, k requires 0 <= k < |cols| =>
      seq(|cols[k]|, h requires 0 <= h < |cols[k]| => if Covers(iv, h) then cols[k][h] else 0))
  }

  /** The windows applied one after another, as `availability_calc` does: each one
      clears every hour outside it, so a flag survives only in hours inside
      all of them. */
  function MaskAll(cols: seq<seq<Bit>>, ivs: seq<Interval>): (r: seq<seq<Bit>>)
    ensures |r| == |cols|
    ensures forall k :: 0 <= k < |cols| ==> |r[k]| == |cols[k]|
    ensures forall k, h :: 0 <= k < |cols| && 0 <= h < |cols[k]| ==>
      r[k][h] == (if InsideAll(ivs, h) then cols[k][h] else 0)
    decreases |ivs|
  {
    if |ivs| == 0 then cols
    else
      var m := MaskColumns(cols, ivs[0]);
      var r := MaskAll(m, ivs[1..]);
      assert forall k, h :: 0 <= k < |cols| && 0 <= h < |cols[k]| ==>
        r[k][h] == (if InsideAll(ivs, h) then cols[k][h] else 0) by {
        forall k, h | 0 <= k < |cols| && 0 <= h < |cols[k]|
          ensures r[k][h] == (if InsideAll(ivs, h) then cols[k][h] else 0)
        {
          assert r[k][h] == (if InsideAll(ivs[1..], h) then m[k][h] else 0);
          assert m[k][h] == (if Covers(ivs[0], h) then cols[k][h] else 0);
          InsideAllFirstAndRest(ivs, h);
        }
      }
      r
  }

  /** Masking never turns a 0 into a 1. */
  lemma MaskNeverRaises(cols: seq<seq<Bit>>, ivs: seq<Interval>)
    ensures forall k, h :: 0 <= k < |cols| && 0 <= h < |cols[k]| ==>
      MaskAll(cols, ivs)[k][h] <= cols[k][h]
  {
    var r := MaskAll(cols, ivs);
    forall k, h | 0 <= k < |cols| && 0 <= h < |cols[k]| ensures r[k][h] <= cols[k][h] {
      assert r[k][h] == (if InsideAll(ivs, h) then cols[k][h] else 0);
    }
  }

  /** After masking, a flag is 1 only in hours that every window covers. */
  lemma MaskOnlyInsideEveryWindow(cols: seq<seq<Bit>>, ivs: seq<Interval>, k: nat, h: nat, j: nat)
    requires k < |cols| && h < |cols[k]| && j < |ivs|
    requires MaskAll(cols, ivs)[k][h] == 1
    ensures ivs[j].first <= h <= ivs[j].last
  {
    var r := MaskAll(cols, ivs);
    assert r[k][h] == (if InsideAll(ivs, h) then cols[k][h] else 0);
    assert Covers(ivs[j], h);
  }

  /** Without windows the outage flags are left as they are. */
  lemma MaskWithoutWindows(cols: seq<seq<Bit>>)
    ensures MaskAll(cols, []) == cols
  {
  }

  /** The common part of all windows: the latest start and the earliest end. */
  function Intersection(ivs: seq<Interval>): (iv: Interval)
    requires |ivs| > 0
    ensures forall h :: Covers(iv, h) <==> InsideAll(ivs, h)
  {
    if |ivs| == 1 then ivs[0]
    else
      var rest := Intersection(ivs[1..]);
      var iv := Interval(
        if ivs[0].first < rest.first then rest.first else ivs[0].first,
        if ivs[0].last < rest.last then ivs[0].last else rest.last);
      assert forall h :: Covers(iv, h) <==> InsideAll(ivs, h) by {
        forall h ensures Covers(iv, h) <==> InsideAll(ivs, h) {
          InsideAllFirstAndRest(ivs, h);
        }
      }
      iv
  }

  /** Several windows act as their intersection, not their union. */
  lemma MaskIsIntersection(cols: seq<seq<Bit>>, ivs: seq<Interval>)
    requires |ivs| > 0
    ensures MaskAll(cols, ivs) == MaskColumns(cols, Intersection(ivs))
  {
    var a, b := MaskAll(cols, ivs), MaskColumns(cols, Intersection(ivs));
    forall k | 0 <= k < |cols| ensures a[k] == b[k] {
      assert |a[k]| == |b[k]|;
      forall h | 0 <= h < |cols[k]| ensures a[k][h] == b[k][h] {
        assert Covers(Intersection(ivs), h) <==> InsideAll(ivs, h);
      }
    }
  }

  /** Two windows that do not overlap clear every outage flag, and so does
      a window whose end precedes its start. */
  lemma DisjointWindowsClearAll(cols: seq<seq<Bit>>, ivs: seq<Interval>, i: nat, j: nat)
    requires i < |ivs| && j < |ivs| && ivs[i].last < ivs[j].first
    ensures forall k, h :: 0 <= k < |cols| && 0 <= h < |cols[k]| ==> MaskAll(cols, ivs)[k][h] == 0
  {
    var r := MaskAll(cols, ivs);
    forall k, h | 0 <= k < |cols| && 0 <= h < |cols[k]| ensures r[k][h] == 0 {
      assert !Covers(ivs[i], h) || !Covers(ivs[j], h);
      assert !InsideAll(ivs, h);
    }
  }
}

=== FILE: scb_ids.dfy ===
/** Reading the inverter number out of a string-box id "SCB I-N": the
    second whitespace-separated word, up to its first '-', read as a
    Python `int`. */
module ScbIds {
  import opened Common

  /** The characters Python's `str.split()` treats as whitespace. */
  predicate IsSpace(c: char)
  {
    var n := c as int;
    || n == 0x20 || 0x09 <= n <= 0x0D || 0x1C <= n <= 0x1F
    || n == 0x85 || n == 0xA0 || n == 0x1680 || 0x2000 <= n <= 0x200A
    || n == 0x2028 || n == 0x2029 || n == 0x202F || n == 0x205F || n == 0x3000
  }

  /** A word `split()` can return: non-empty, without whitespace. */
  predicate IsWord(w: string)
  {
    |w| > 0 && forall i :: 0 <= i < |w| ==> !IsSpace(w[i])
  }

  /** Length of the leading run of non-whitespace characters. */
  function WordLength(s: string): (n: nat)
    ensures n <= |s|
    ensures forall i :: 0 <= i < n ==> !IsSpace(s[i])
    ensures n < |s| ==> IsSpace(s[n])
  {
    if |s| == 0 || IsSpace(s[0]) then 0 else 1 + WordLength(s[1..])
  }

  /** The characters of `s` that are not whitespace, in order. */
  function NonSpace(s: string): string
  {
    if |s| == 0 then ""
    else (if IsSpace(s[0]) then "" else [s[0]]) + NonSpace(s[1..])
  }

  /** The words of a list, written one after the other. */
  function Concat(ws: seq<string>): string
  {
    if |ws| == 0 then "" else ws[0] + Concat(ws[1..])
  }

  /** A string made of whitespace only (possibly empty). */
  predicate IsBlank(s: string)
  {
    forall i :: 0 <= i < |s| ==> IsSpace(s[i])
  }

  /** Python's `s.split()`: the maximal runs of non-whitespace characters,
      in order; leading, trailing and repeated whitespace produce no word. */
  function Split(s: string): (ws: seq<string>)
    ensures forall k :: 0 <= k < |ws| ==> IsWord(ws[k])
    ensures Concat(ws) == NonSpace(s)
    decreases |s|
  {
    if |s| == 0 then []
    else if IsSpace(s[0]) then Split(s[1..])
    else
      var n := WordLength(s);
      var ws := [s[..n]] + Split(s[n..]);
      NonSpaceOfWordPrefix(s, n);
      assert ws[1..] == Split(s[n..]);
      ws
  }

  /** A prefix without whitespace passes through `NonSpace` unchanged. */
  lemma {:induction false} NonSpaceOfWordPrefix(s: string, n: nat)
    requires n <= |s|
    requires forall i :: 0 <= i < n ==> !IsSpace(s[i])
    ensures NonSpace(s) == s[..n] + NonSpace(s[n..])
  {
    if n > 0 {
      NonSpaceOfWordPrefix(s[1..], n - 1);
      assert s[1..][n - 1..] == s[n..];
      assert s[..n] == [s[0]] + s[1..][..n - 1];
    }
  }

  /** Words each followed by their own separator. */
  function Spaced(ws: seq<string>, seps: seq<string>): string
    requires |seps| == |ws|
  {
    if |ws| == 0 then "" else ws[0] + seps[0] + Spaced(ws[1..], seps[1..])
  }

  /** The separators `split()` skips: whitespace runs, non-empty between two
      words, possibly empty after the last one. */
  predicate Separators(ws: seq<string>, seps: seq<string>)
  {
    && |seps| == |ws|
    && (forall k :: 0 <= k < |seps| ==> IsBlank(seps[k]))
    && (forall k :: 0 <= k < |seps| - 1 ==> |seps[k]| > 0)
  }

  /** Python's `s.split('-')[0]`: everything before the first '-'. */
  function BeforeDash(s: string): (p: string)
    ensures p <= s
    ensures '-' !in p
    ensures p == s || s[|p|] == '-'
  {
    if |s| == 0 || s[0] == '-' then "" else [s[0]] + BeforeDash(s[1..])
  }

  predicate IsDigit(c: char) { '0' <= c <= '9' }

  function DigitValue(c: char): nat
    requires IsDigit(c)
  {
    c as int - '0' as int
  }

  function DigitChar(d: nat): (c: char)
    requires d < 10
    ensures IsDigit(c) && DigitValue(c) == d
  {
    ('0' as int + d) as char
  }

  /** The digit strings Python's `int()` accepts after an optional sign:
      decimal digits, possibly grouped by single underscores that sit
      between two digits. */
  predicate IsGroupedDigits(t: string)
  {
    && |t| > 0
    && IsDigit(t[0])
    && IsDigit(t[|t| - 1])
    && forall i :: 0 <= i < |t| ==> IsDigit(t[i]) || (t[i] == '_' && 0 < i && IsDigit(t[i - 1]))
  }

  /** The decimal value of a digit string, underscores ignored. */
  function DigitsValue(t: string): nat
  {
    if |t| == 0 then 0
    else if IsDigit(t[|t| - 1]) then DigitsValue(t[..|t| - 1]) * 10 + DigitValue(t[|t| - 1])
    else DigitsValue(t[..|t| - 1])
  }

  /** Python's `int(t)` on a string without whitespace and without '-':
      an optional '+' followed by grouped digits; anything else is the
      ValueError `int` raises. */
  function ParseInt(t: string): (r: Option<nat>)
    ensures r.Some? <==>
      IsGroupedDigits(if |t| > 0 && t[0] == '+' then t[1..] else t)
  {
    var body := if |t| > 0 && t[0] == '+' then t[1..] else t;
    if IsGroupedDigits(body) then Some(DigitsValue(body)) else None
  }

  /** Decimal notation of a natural number, without leading zeros. */
  function NatToString(n: nat): (s: string)
    ensures |s| > 0
    ensures forall i :: 0 <= i < |s| ==> IsDigit(s[i])
  {
    if n < 10 then [DigitChar(n)] else NatToString(n / 10) + [DigitChar(n % 10)]
  }

  /** The inverter number I of a string-box id "SCB I-N". `None` stands for
      the IndexError (fewer than two words) or the ValueError (no integer
      before the first '-') that `availability_calc` raises. */
  function ParseScbId(id: string): (r: Option<nat>)
    ensures |Split(id)| >= 2 ==> r == ParseInt(BeforeDash(Split(id)[1]))
    ensures |Split(id)| < 2 ==> r.None?
  {
    var words := Split(id);
    if |words| < 2 then None else ParseInt(BeforeDash(words[1]))
  }

  /** The id "SCB I-N" of a string box of inverter I = `inverter`, whose
      correlative part N is `suffix`. */
  function ScbName(inverter: nat, suffix: string): string
  {
    "SCB " + NatToString(inverter) + "-" + suffix
  }

  /** `split()` stops a word at the first whitespace. */
  lemma {:induction false} WordLengthOfWord(w: string, rest: string)
    requires IsWord(w)
    requires |rest| == 0 || IsSpace(rest[0])
    ensures WordLength(w + rest) == |w|
    decreases |w|
  {
    if |w| > 1 {
      assert (w + rest)[1..] == w[1..] + rest;
      WordLengthOfWord(w[1..], rest);
    } else {
      assert (w + rest)[1..] == rest;
    }
  }

  /** Leading whitespace produces no word. */
  lemma {:induction false} SplitBlankPrefix(b: string, s: string)
    requires IsBlank(b)
    ensures Split(b + s) == Split(s)
  {
    if |b| > 0 {
      assert (b + s)[0] == b[0] && IsSpace(b[0]);
      assert (b + s)[1..] == b[1..] + s;
      SplitBlankPrefix(b[1..], s);
    } else {
      assert b + s == s;
    }
  }

  /** A word followed by whitespace or by nothing is the first word. */
  lemma SplitWordThen(w: string, s: string)
    requires IsWord(w)
    requires |s| == 0 || IsSpace(s[0])
    ensures Split(w + s) == [w] + Split(s)
  {
    WordLengthOfWord(w, s);
    assert (w + s)[..|w|] == w;
    assert (w + s)[|w|..] == s;
  }

  /** Splitting a word followed by a space yields that word, then the words
      of the remainder. */
  lemma SplitWordThenSpace(w: string, rest: string)
    requires IsWord(w)
    ensures Split(w + " " + rest) == [w] + Split(rest)
  {
    SplitWordThen(w, " " + rest);
    assert w + " " + rest == w + (" " + rest);
    assert (" " + rest)[0] == ' ';
    SplitBlankPrefix(" ", rest);
  }

  /** Splitting a single word yields just that word. */
  lemma SplitOneWord(w: string)
    requires IsWord(w)
    ensures Split(w) == [w]
  {
    SplitWordThen(w, "");
    assert w + "" == w;
  }

  /** `split()` recovers the words of any string built from words and
      whitespace: leading whitespace, then each word followed by its
      separator. Every string has this form, so this pins `Split` down. */
  lemma {:induction false} SplitSpaced(lead: string, ws: seq<string>, seps: seq<string>)
    requires IsBlank(lead)
    requires forall k :: 0 <= k < |ws| ==> IsWord(ws[k])
    requires Separators(ws, seps)
    ensures Split(lead + Spaced(ws, seps)) == ws
    decreases |ws|
  {
    SplitBlankPrefix(lead, Spaced(ws, seps));
    if |ws| > 0 {
      var tail := seps[0] + Spaced(ws[1..], seps[1..]);
      assert Spaced(ws, seps) == ws[0] + tail;
      assert |tail| == 0 || IsSpace(tail[0]) by {
        if |ws| == 1 {
          assert tail == seps[0] + "";
        } else {
          assert tail[0] == seps[0][0];
        }
      }
      SplitWordThen(ws[0], tail);
      SplitSpaced(seps[0], ws[1..], seps[1..]);
      assert [ws[0]] + ws[1..] == ws;
    }
  }

  /** The decimal notation of `n` has value `n`. */
  lemma {:induction false} NatToStringValue(n: nat)
    ensures DigitsValue(NatToString(n)) == n
  {
    var s := NatToString(n);
    if n < 10 {
      assert s[..|s| - 1] == [];
    } else {
      NatToStringValue(n / 10);
      assert s[..|s| - 1] == NatToString(n / 10);
    }
  }

  /** `int()` reads back the decimal notation of every natural number. */
  lemma ParseIntNatToString(n: nat)
    ensures ParseInt(NatToString(n)) == Some(n)
  {
    var s := NatToString(n);
    NatToStringValue(n);
    assert s[0] != '+';
    assert IsGroupedDigits(s);
  }

  /** A leading '+' does not change what `int()` reads. */
  lemma ParseIntPlusSign(t: string)
    requires |t| == 0 || t[0] != '+'
    ensures ParseInt("+" + t) == ParseInt(t)
  {
    assert ("+" + t)[1..] == t;
  }

  /** A string of zeros has value 0. */
  lemma {:induction false} ZerosValue(z: string)
    requires forall i :: 0 <= i < |z| ==> z[i] == '0'
    ensures DigitsValue(z) == 0
  {
    if |z| > 0 {
      ZerosValue(z[..|z| - 1]);
    }
  }

  /** Leading zeros add nothing to the value of a digit string. */
  lemma {:induction false} DigitsValueLeadingZeros(z: string, t: string)
    requires forall i :: 0 <= i < |z| ==> z[i] == '0'
    ensures DigitsValue(z + t) == DigitsValue(t)
    decreases |t|
  {
    if |t| == 0 {
      assert z + t == z;
      ZerosValue(z);
    } else {
      var u := z + t;
      assert u[..|u| - 1] == z + t[..|t| - 1];
      assert u[|u| - 1] == t[|t| - 1];
      DigitsValueLeadingZeros(z, t[..|t| - 1]);
    }
  }

  /** `int()` ignores leading zeros: "007" reads as 7. */
  lemma ParseIntLeadingZeros(z: string, t: string)
    requires forall i :: 0 <= i < |z| ==> z[i] == '0'
    requires IsGroupedDigits(t)
    ensures ParseInt(z + t) == ParseInt(t)
  {
    DigitsValueLeadingZeros(z, t);
    var u := z + t;
    assert IsGroupedDigits(u) by {
      assert IsDigit(u[0]) by {
        if |z| > 0 { assert u[0] == z[0]; } else { assert u[0] == t[0]; }
      }
      assert u[|u| - 1] == t[|t| - 1];
      forall i | 0 <= i < |u| ensures IsDigit(u[i]) || (u[i] == '_' && 0 < i && IsDigit(u[i - 1])) {
        if i < |z| {
          assert u[i] == z[i];
        } else {
          assert u[i] == t[i - |z|];
          if i > |z| { assert u[i - 1] == t[i - 1 - |z|]; }
        }
      }
    }
  }

  /** An underscore adds nothing to the value of a digit string. */
  lemma {:induction false} DigitsValueUnderscore(a: string, b: string)
    ensures DigitsValue(a + "_" + b) == DigitsValue(a + b)
    decreases |b|
  {
    var u := a + "_" + b;
    var v := a + b;
    if |b| == 0 {
      assert u[..|u| - 1] == a;
      assert v == a;
    } else {
      assert u[..|u| - 1] == a + "_" + b[..|b| - 1];
      assert v[..|v| - 1] == a + b[..|b| - 1];
      assert u[|u| - 1] == b[|b| - 1] == v[|v| - 1];
      DigitsValueUnderscore(a, b[..|b| - 1]);
    }
  }

  /** Two grouped digit strings, with or without an underscore between
      them, are both accepted. */
  lemma JoinGroupedDigits(a: string, b: string)
    requires IsGroupedDigits(a) && IsGroupedDigits(b)
    ensures IsGroupedDigits(a + "_" + b) && IsGroupedDigits(a + b)
  {
    var u := a + "_" + b;
    var v := a + b;
    assert u[0] == a[0] && v[0] == a[0];
    assert u[|u| - 1] == b[|b| - 1] && v[|v| - 1] == b[|b| - 1];
    forall i | 0 <= i < |u| ensures IsDigit(u[i]) || (u[i] == '_' && 0 < i && IsDigit(u[i - 1])) {
      if i < |a| {
        assert u[i] == a[i];
        if i > 0 { assert u[i - 1] == a[i - 1]; }
      } else if i == |a| {
        assert u[i - 1] == a[|a| - 1];
      } else {
        assert u[i] == b[i - |a| - 1];
        if i > |a| + 1 { assert u[i - 1] == b[i - |a| - 2]; } else { assert u[i - 1] == '_'; }
      }
    }
    forall i | 0 <= i < |v| ensures IsDigit(v[i]) || (v[i] == '_' && 0 < i && IsDigit(v[i - 1])) {
      if i < |a| {
        assert v[i] == a[i];
        if i > 0 { assert v[i - 1] == a[i - 1]; }
      } else {
        assert v[i] == b[i - |a|];
        if i > |a| { assert v[i - 1] == b[i - |a| - 1]; }
      }
    }
  }

  /** `int()` ignores the underscores that group digits: "1_000" reads
      as 1000. */
  lemma ParseIntUnderscore(a: string, b: string)
    requires IsGroupedDigits(a) && IsGroupedDigits(b)
    ensures ParseInt(a + "_" + b) == ParseInt(a + b)
  {
    JoinGroupedDigits(a, b);
    DigitsValueUnderscore(a, b);
    assert (a + "_" + b)[0] == a[0] && (a + b)[0] == a[0];
  }

  /** Python's `int` reads "01" as 1, "+3" as 3 and "1_0" as 10. */
  lemma ParseIntExamples()
    ensures ParseInt("01") == Some(1)
    ensures ParseInt("+3") == Some(3)
    ensures ParseInt("1_0") == Some(10)
  {
    ParseIntNatToString(1);
    assert NatToString(1) == "1";
    ParseIntLeadingZeros("0", "1");
    assert "0" + "1" == "01";
    ParseIntNatToString(3);
    assert NatToString(3) == "3";
    ParseIntPlusSign("3");
    assert "+" + "3" == "+3";
    ParseIntNatToString(10);
    assert NatToString(10) == "10";
    ParseIntUnderscore("1", "0");
    assert "1" + "_" + "0" == "1_0";
    assert "1" + "0" == "10";
  }

  /** The inverter number comes back out of every well-formed id, whatever
      follows the '-'. */
  lemma ParseScbName(inverter: nat, suffix: string)
    requires forall i :: 0 <= i < |suffix| ==> !IsSpace(suffix[i])
    ensures ParseScbId(ScbName(inverter, suffix)) == Some(inverter)
  {
    var digits := NatToString(inverter);
    ScbNameWords(inverter, suffix);
    NoDashInDigits(digits);
    BeforeDashOfPrefix(digits, suffix);
    assert digits + "-" + suffix == digits + ("-" + suffix);
    ParseIntNatToString(inverter);
  }

  /** A well-formed id splits into "SCB" and "I-N". */
  lemma ScbNameWords(inverter: nat, suffix: string)
    requires forall i :: 0 <= i < |suffix| ==> !IsSpace(suffix[i])
    ensures Split(ScbName(inverter, suffix)) == ["SCB", NatToString(inverter) + "-" + suffix]
  {
    var digits := NatToString(inverter);
    var second := digits + "-" + suffix;
    assert IsWord(second) by {
      forall i | 0 <= i < |second| ensures !IsSpace(second[i]) {
        if i < |digits| { assert second[i] == digits[i]; }
        else if i > |digits| { assert second[i] == suffix[i - |digits| - 1]; }
      }
    }
    assert ScbName(inverter, suffix) == "SCB" + " " + second;
    SplitWordThenSpace("SCB", second);
    SplitOneWord(second);
  }

  /** A decimal numeral has no '-'. */
  lemma NoDashInDigits(digits: string)
    requires forall i :: 0 <= i < |digits| ==> IsDigit(digits[i])
    ensures '-' !in digits
  {
    forall i | 0 <= i < |digits| ensures digits[i] != '-' {
      assert IsDigit(digits[i]);
    }
  }

  /** The part before the first '-' of `p + "-" + s` is `p` when `p` has no
      '-'. */
  lemma {:induction false} BeforeDashOfPrefix(p: string, s: string)
    requires '-' !in p
    ensures BeforeDash(p + ("-" + s)) == p
  {
    if |p| > 0 {
      assert (p + ("-" + s))[1..] == p[1..] + ("-" + s);
      BeforeDashOfPrefix(p[1..], s);
    }
  }

  /** The ids of the sample call read as expected. */
  lemma ParseScbIdExamples()
    ensures ParseScbId("SCB 1-06") == Some(1)
    ensures ParseScbId("SCB 5-10") == Some(5)
  {
    ParseScbIdExample1();
    ParseScbIdExample5();
  }

  lemma ParseScbIdExample1()
    ensures ParseScbId("SCB 1-06") == Some(1)
  {
    ParseScbName(1, "06");
    assert ScbName(1, "06") == "SCB 1-06";
  }

  lemma ParseScbIdExample5()
    ensures ParseScbId("SCB 5-10") == Some(5)
  {
    ParseScbName(5, "10");
    assert ScbName(5, "10") == "SCB 5-10";
  }

  /** An id with no space before the inverter number has one word only,
      so `split()[1]` in `availability_calc` raises IndexError. */
  lemma MissingSpaceRejected()
    ensures ParseScbId("SCB5-10") == None
  {
    assert IsWord("SCB5-10");
    SplitOneWord("SCB5-10");
  }

  /** An id whose inverter part is not a number makes `int()` raise. */
  lemma NonNumericInverterRejected()
    ensures ParseScbId("SCB x-10") == None
  {
    assert IsWord("SCB") && IsWord("x-10");
    SplitWordThenSpace("SCB", "x-10");
    SplitOneWord("x-10");
    assert "SCB" + " " + "x-10" == "SCB x-10";
    assert BeforeDash("x-10") == "x";
  }
}
